=== FILE: README.md ===
# Thorin Sentry plugin: the event-processing core in Dafny

This project models the logic inside the Thorin plugin that connects a Thorin
application to the Sentry error-tracking service (`lib/sentry.js`). The model
covers five parts:

- **Ignore policy** (`ErrorFilter`). Errors raised through Thorin's error hook
  are dropped when their namespace, status code or code appears in a
  configured ignore list.
- **`beforeSend` scrubber** (`EventScrubber`, `ScrubberProofs`). It enriches
  the event's tags and extra data from a Thorin-style original exception. It
  rewrites each exception type to `Thorin: <code>`. It trims `pre_context` and
  `post_context` on every stack frame. It replaces the application root in
  file names with `.`.
- **Integration resolver** (`IntegrationSelector`). This is the callback that
  picks the SDK integrations to install.
- **Fatal-signal handler** (`FailureInterceptor`). Its `isShuttingDown` guard
  lets only the first uncaught exception or unhandled rejection capture, flush
  and schedule `process.exit(1)`.
- **Plugin session and manual `capture`** (`SentryPlugin`). The session is
  active only when a truthy DSN is configured.

JavaScript values are modelled explicitly (`JsValues`):

- A property that may be `undefined` is an `Option`.
- `""` and `0` are falsy.
- Payloads are a JSON-like `JsData`.
- `Array.prototype.indexOf`, `String.prototype.indexOf`,
  `String.prototype.replace` with a string pattern (first occurrence only),
  and `splice(0, n)` (with its clamping of the count) are defined and
  specified.

The SDK and the process are external. Their calls are either effects in a
returned trace (`FailureInterceptor.Effect`) or parameters: how the SDK
behaves during a signal, the event id it assigns, the default integrations,
and the root path.

Points where the code behaves differently from what a reader might expect,
all modelled as the code does them:

- `post_context` keeps its **last** `post` lines, just like `pre_context`.
  The code uses `splice(0, len - post)` for both.
- `integrations: false` returns the SDK defaults unchanged, not an empty
  list. See Findings.
- The Dedupe integration is always appended, but the name filter removes it
  unless the configuration names it. For example, defaults `[A, B]` with `["A"]`
  give `[A]`.
- File-name redaction replaces the first occurrence of the root anywhere in
  the name. It is not a prefix test.
- A second scrub does not change context lists. It is not idempotent on file
  names in general: `ScrubberProofs.RedactionNotIdempotent` shows this.
- index.js defaults only `debug`, `dsn` and `logger`, and lib/sentry.js sets
  no ignore lists of its own; the ignore lists are plain options here.

## Model

| member | source | states |
|---|---|---|
| `JsValues.IndexOf` | lib/sentry.js:44-46 | `indexOf` with strict equality returns -1 exactly when the value is absent; otherwise it returns the first position holding the value |
| `JsValues.IndexOfSub` | lib/sentry.js:110 | the string `indexOf` returns the first position where the pattern occurs, or -1 exactly when it occurs nowhere; the empty pattern is found at 0 |
| `JsValues.ReplaceFirst` | lib/sentry.js:105 | `replace` with a string pattern returns the string unchanged when the pattern is absent; otherwise the length changes by the replacement minus the pattern |
| `JsValues.SpliceFront` | lib/sentry.js:92 | `splice(0, d)` leaves a suffix of the array: `d` is clamped to `0..len`, and a non-positive `d` leaves the array as it was |
| `ErrorFilter.Enabled` | lib/sentry.js:39-41 | an ignore list is switched on exactly when it is present and non-empty |
| `ErrorFilter.ResolveFilter` | lib/sentry.js:39-41 | a missing `opt.ignore` switches all three axes off |
| `ErrorFilter.Ignores` | lib/sentry.js:44-46 | the three early returns drop an error exactly when an enabled list holds its truthy namespace, status code or code; the `indexOf` probes agree with plain membership |
| `ErrorFilter.IgnoredExactly` | lib/sentry.js:39-46 | an error is ignored exactly when a present, non-empty namespace, status-code or code list holds the corresponding truthy field of the error (OR over the three axes) |
| `ErrorFilter.EmptyListNeverIgnores` | lib/sentry.js:39-46 | when a list is empty or missing, the verdict does not depend on that field of the error |
| `ErrorFilter.OnCustomErrorAsWritten` | lib/sentry.js:43-47 | the hook returns early exactly for ignored errors; no error is ever forwarded, because the stray `aa` throws |
| `ErrorFilter.StrayIdentifierBlocksCapture` | lib/sentry.js:47 | an error with namespace `app` and no ignore lists ends in a ReferenceError instead of a capture |
| `ErrorFilter.OnCustomError` | lib/sentry.js:43-53 | corrected hook: exactly the ignored errors are dropped, and every other error is forwarded unchanged |
| `EventScrubber.ResolveConfig` | lib/sentry.js:59-60 | each missing limit defaults to 0 on its own, whether `contextLines` is missing or only `pre` or `post` is; `fullPath` is on only for exactly the boolean `true` |
| `EventScrubber.OriginalError` | lib/sentry.js:61 | the original exception is used exactly when it exists and has a truthy `code` |
| `EventScrubber.TrimContext` | lib/sentry.js:88-102 | a missing list stays missing; a zero limit removes the key; a positive limit keeps the last `min(n, len)` lines in order; a negative limit changes nothing |
| `EventScrubber.RedactFilename` | lib/sentry.js:104-106 | a missing or empty file name, or `fullPath`, leaves the name as it is; otherwise the name becomes the text before the root's first occurrence, then `.`, then the text after it (so it shrinks by the root's length minus one), and a name without the root is kept |
| `EventScrubber.ScrubFrame` | lib/sentry.js:86-106 | scrubbing a frame never changes its context line |
| `EventScrubber.ScrubFrames` | lib/sentry.js:85-107 | every frame is scrubbed in place, and the frame count is kept |
| `EventScrubber.WithScrubbedFrames` | lib/sentry.js:84-108 | scrubbing frames leaves the type, message and mechanism of an exception value untouched, and never adds or removes the `stacktrace` or `frames` keys |
| `EventScrubber.RewrittenType` | lib/sentry.js:79-83 | with an original error whose code is truthy, the type becomes `Thorin: ` followed by that code; otherwise the type is kept |
| `EventScrubber.MarksThorin` | lib/sentry.js:110 | a type marks a Thorin error exactly when it is present, non-empty and contains `Thorin` at some position |
| `EventScrubber.ScrubValue` | lib/sentry.js:78-112 | the type is rewritten when there is a code; the frames are scrubbed; a value throws exactly when its new type contains "Thorin" and it has no mechanism; otherwise such a value gets mechanism type `thorin`; the `stacktrace` and `frames` keys are present afterwards exactly when they were before |
| `EventScrubber.ReachesStep` | lib/sentry.js:77-116 | the loop reaches value `i` exactly when the first value does not throw and the loop over the rest reaches value `i-1` |
| `EventScrubber.LoopResultCons` | lib/sentry.js:77-116 | the loop's result is the first value's scrub followed by the untouched tail when that value throws, or else by the loop's result on the tail |
| `EventScrubber.ScrubValues` | lib/sentry.js:75-116 | the loop keeps the number of values; value `i` is scrubbed exactly when no earlier value threw, and later values are returned untouched; the loop completes exactly when no value throws |
| `EventScrubber.Enrich` | lib/sentry.js:61-74 | with a truthy code and namespace, the tags become exactly `{namespace, code}`, plus `status_code` for a truthy status; truthy data is added as `extra.data` and other extra keys are kept; otherwise tags and extra are untouched |
| `EventScrubber.BeforeSend` | lib/sentry.js:58-118 | the event is always returned, never dropped; its exception list is the result of the guarded loop, and its tags and extra come from the enrichment |
| `ScrubberProofs.TrimKeepsLastLines` | lib/sentry.js:91-93 | with a positive limit `n`, at most `n` lines remain: the last ones, in their original order; a list no longer than `n` is kept whole |
| `ScrubberProofs.TrimIdempotent` | lib/sentry.js:88-102 | trimming an already trimmed list with the same limit changes nothing |
| `ScrubberProofs.LeadingRootBecomesDot` | lib/sentry.js:104-106 | a root at the start of a file name is replaced by `.` and the rest of the name is kept |
| `ScrubberProofs.AppRootExample` | lib/sentry.js:105 | `/app/lib/x.js` with root `/app` becomes `./lib/x.js` |
| `ScrubberProofs.ReplaceAtFirstOccurrence` | lib/sentry.js:105 | the replacement happens at the first position where the root occurs |
| `ScrubberProofs.RootInsideNameIsReplaced` | lib/sentry.js:105 | a root that occurs first after a directory part is replaced there, not only as a prefix |
| `ScrubberProofs.ReplaceFixpointIff` | lib/sentry.js:105 | a redacted name is left unchanged by another redaction exactly when the root does not occur in it, or the root is `.` |
| `ScrubberProofs.RedactionNotIdempotent` | lib/sentry.js:105 | with root `/app`, `/app/app/x.js` becomes `./app/x.js` and then `../x.js` |
| `ScrubberProofs.ScrubFrameTwice` | lib/sentry.js:86-106 | re-scrubbing a frame keeps its context lists and context line; with `fullPath` it keeps the whole frame and the original file name; otherwise it keeps the frame exactly when the root no longer occurs in the name |
| `ScrubberProofs.ScrubFramesFixpoint` | lib/sentry.js:85-107 | with `fullPath`, the frames of a scrubbed value are a fixpoint of scrubbing |
| `ScrubberProofs.WithScrubbedFramesFixpoint` | lib/sentry.js:84-108 | when every frame of a value is already a fixpoint, scrubbing its frames returns the value itself |
| `ScrubberProofs.CodeRewriteMarksThorin` | lib/sentry.js:79-112 | with a truthy original code, the new type always contains "Thorin", so a value throws exactly when it has no mechanism |
| `ScrubberProofs.ScrubValueTwice` | lib/sentry.js:78-112 | re-scrubbing a scrubbed value gives the same type, mechanism and outcome; only its frames are scrubbed again |
| `ScrubberProofs.ScrubValuesTwice` | lib/sentry.js:75-116 | a second loop over the first loop's output stops at the same value; the values it reaches only have their frames scrubbed again |
| `ScrubberProofs.CodeRewritesReachedTypes` | lib/sentry.js:76-117 | with a truthy original code, value `i` is reached exactly when all earlier values have a mechanism; reached values get type `Thorin: <code>` and mechanism type `thorin`; later values are untouched, and the event keeps all its values |
| `ScrubberProofs.ReachedFramesAreTrimmed` | lib/sentry.js:84-107 | every frame of every reached value, including the value that throws, has both context lists trimmed by their limits; its file name is redacted unless `fullPath` is set |
| `ScrubberProofs.EnrichTwice` | lib/sentry.js:62-74 | enrichment applied twice equals enrichment applied once |
| `ScrubberProofs.BeforeSendIdempotentWithFullPath` | lib/sentry.js:58-118 | with `fullPath`, scrubbing an already scrubbed event changes nothing at all |
| `ScrubberProofs.RescrubKeepsContexts` | lib/sentry.js:85-102 | scrubbing already scrubbed frames again keeps every frame's context lists |
| `ScrubberProofs.ScrubValuesTwiceKeepsContexts` | lib/sentry.js:75-116 | a second loop over the first loop's output leaves the context lists of every value as they were |
| `ScrubberProofs.ContextTrimmingIdempotent` | lib/sentry.js:58-118 | under any options, a second scrub of a scrubbed event leaves every `pre_context` and `post_context` as the first scrub left it |
| `IntegrationSelector.KeepNamed` | lib/sentry.js:146-148 | the filter keeps exactly those integrations whose name (possibly missing) was recorded, and never lengthens the list |
| `IntegrationSelector.CollectEntries` | lib/sentry.js:137-144 | the `forEach` pushes the configured instances in order; it records their names and the non-empty strings, and skips everything else |
| `IntegrationSelector.FilterByName` | lib/sentry.js:146-148 | the filter loop computes the order-preserving name filter |
| `IntegrationSelector.SelectIntegrations` | lib/sentry.js:132-149 | the callback returns the defaults for a missing or `false` setting; for a list, it returns the name-filtered defaults, then Dedupe, then the configured instances |
| `IntegrationSelector.KeepNamedAppend` | lib/sentry.js:146-148 | the filter distributes over concatenation, so the kept integrations stay in their relative order |
| `IntegrationSelector.ListedSelection` | lib/sentry.js:135-148 | an integration is selected exactly when it is a default, Dedupe or a configured instance, and its name was configured; the filtered defaults come first, then Dedupe, then the instances |
| `IntegrationSelector.NamesOfMembers` | lib/sentry.js:137-144 | a name is recorded exactly when some entry contributes it |
| `IntegrationSelector.DedupeOnlyIfNamed` | lib/sentry.js:135-148 | Dedupe is in the result exactly when some entry is the string `Dedupe` or an instance named `Dedupe` |
| `IntegrationSelector.KeepNamedNoNames` | lib/sentry.js:146-148 | with no recorded names, nothing passes the filter |
| `IntegrationSelector.EmptyListSelectsNothing` | lib/sentry.js:135-148 | an empty configured list selects no integration at all, not even the defaults |
| `IntegrationSelector.SingleNameExample` | lib/sentry.js:132-149 | defaults `[A, B]` with configuration `["A"]` give `[A]` |
| `IntegrationSelector.FalseKeepsDefaults` | lib/sentry.js:133-134 | `false`, like a missing setting, returns the defaults unchanged, so the branch that returns `[]` is dead |
| `IntegrationSelector.SelectIntegrationsIntended` | lib/sentry.js:133-134 | corrected callback: `false` disables every integration, and the other settings behave as before |
| `FailureInterceptor.OnFatal` | lib/sentry.js:19-33 | every signal is logged first, and the guard is always raised afterwards; with the guard already up, nothing else happens; otherwise capture comes next, flush happens exactly when the capture did not throw, the failure log appears exactly when the capture or the flush threw, and `exit(1)` after 50 ms is scheduled last exactly when the flush settles; a flush that never settles ends the trace after `Flush` |
| `FailureInterceptor.Attempt` | lib/sentry.js:23-29 | the try block captures first; a flush follows exactly when the capture did not throw; the catch logs exactly when the capture or the flush threw, not when the flush stays pending; nothing else happens |
| `FailureInterceptor.CountAppend` | lib/sentry.js:19-33 | effect counts add up over concatenated traces |
| `FailureInterceptor.OnFatalCounts` | lib/sentry.js:19-33 | one call logs once; it captures once when the guard was down and never otherwise; it schedules exit once when the guard was down and the try block settled, and never otherwise; it never flushes more often than it captures |
| `FailureInterceptor.OnFatalCountsOf` | lib/sentry.js:19-33 | the effects of one call of any kind are the console line, plus the attempt when the guard was down, plus the scheduled exit when, in addition, the try block settled |
| `FailureInterceptor.AttemptCounts` | lib/sentry.js:24-31 | one attempt captures once, flushes only when the capture did not throw, and logs a failure only when the capture or the flush threw |
| `FailureInterceptor.AtMostOneShutdown` | lib/sentry.js:13-33 | over any sequence of fatal signals, each signal is logged; with the guard initially down and at least one signal, capture happens exactly once, and never otherwise; the exit is scheduled at most once, and exactly once when in addition the first signal's flush settles (no timeout is passed to `flush`, so it may not); neither exits nor flushes outnumber captures; once raised, the guard stays raised |
| `SentryPlugin.Init` | lib/sentry.js:121-151 | the session is active exactly when the DSN is truthy; the guard starts down; the filter and scrub settings are resolved from the options |
| `SentryPlugin.Capture` | lib/sentry.js:170-173 | an inactive session returns nothing and has no effect; an active one captures `e` and returns the SDK's event id |
| `SentryPlugin.CaptureGate` | lib/sentry.js:121-173 | without a truthy DSN, no sequence of manual captures reaches the SDK; with one, every call is captured, in order |
| `SentryPlugin.HandleFatal` | lib/sentry.js:151-156 | fatal signals reach the guard only when the handlers were installed, that is, when the session is active |
| `SentryPlugin.HandleThorinError` | lib/sentry.js:39-52 | with the hook registered as written, Thorin errors reach the ignore policy only when the session is active; each error the policy keeps ends in the ReferenceError of `aa`, and no error is ever forwarded |
| `SentryPlugin.HandleThorinErrorIntended` | lib/sentry.js:151-152 | with the corrected hook, each error the policy keeps is forwarded unchanged, and only while the session is active |
| `SentryPlugin.HandleThorinErrorDiffers` | lib/sentry.js:47 | the registered and corrected wirings agree exactly on an inactive session and on ignored errors |

## Left out

- Sentry SDK calls (`Sentry.init`, `captureException`, `flush`, constructing `Integrations.Dedupe`) are foreign code. Capture and flush are effects in a trace. How the SDK behaves during a signal (it succeeds, the capture throws, the flush throws, or the flush never settles) is a `SdkBehaviour` parameter. The event id is a parameter. Dedupe is an integration named `Dedupe`.
- `process.on`, `process.removeAllListeners`, `setTimeout`, `process.exit`, `console.error` and the logger calls are runtime plumbing. They appear only as effects. The 50 ms delay and exit code 1 are constants.
- The async/await structure of the two handlers is not modelled; they are synchronous. The guard flag is set before the first `await`, so a re-entrant signal during the flush sees it raised. The model's sequential run covers this.
- `path.normalize(thorin.root)` is not modelled; the normalised root is a given string.
- The option defaulting in index.js (`thorin.util.extend`, `thorin.config`) is not modelled, because the merge semantics are not visible here.
- The options passed through to `Sentry.init` (debug, release, environment, server name, `opt.opt`) are configuration glue.
- The DSN log line (lib/sentry.js:157-162) and `getInstance` (lib/sentry.js:178) are not modelled: they do logging and return the SDK object.
- Non-string codes and namespaces are left out, and so are status codes compared across types (`"404"` against `404`). Non-integer or NaN context limits, non-array ignore lists, and a truthy non-array `opt.integrations` are left out too. The JavaScript in these cases relies on dynamic typing; the model's field types exclude them.
- Exception values or frames that are `null`, and a missing hint, are left out. They would throw elsewhere than at the mechanism assignment.
- Object aliasing is not modelled, because values are immutable: the same frame object appearing twice would be scrubbed twice in JavaScript.
- The capture of non-ignored errors in the registered hook is unreachable, because of the stray identifier at lib/sentry.js:47; only the corrected wiring forwards them. See Findings.

## Findings

| source | as written | input that shows it | evidently intended | confidence | as-written member | corrected member |
|---|---|---|---|---|---|---|
| lib/sentry.js:47 | the expression statement `aa` reads an undeclared identifier. Every error that passes the ignore checks throws a ReferenceError, so `Sentry.captureException(err)` is never reached | an error with `ns` `app` and no ignore lists | errors that are not ignored are captured | high; not executed | `ErrorFilter.OnCustomErrorAsWritten` | `ErrorFilter.OnCustomError` |
| lib/sentry.js:133-134 | `if (!opt.integrations) return integrations;` runs before `if (opt.integrations === false) return [];`, so `false` keeps every default integration | `opt.integrations = false` | `false` disables all integrations (an empty list) | high; not executed | `IntegrationSelector.FalseKeepsDefaults` | `IntegrationSelector.SelectIntegrationsIntended` |

`SentryPlugin.HandleThorinError` registers the hook as written; `SentryPlugin.HandleThorinErrorIntended` wires in the corrected one. `IntegrationSelector.SelectIntegrations` stays as written, because it is the callback the SDK receives.

=== FILE: error_filter.dfy ===
/**
 The ignore policy applied to errors raised through the Thorin error hook
 (`onThorinCustomError` in lib/sentry.js). Three optional ignore lists are
 resolved once when the plugin starts; an error is dropped when any enabled
 list holds its (truthy) namespace, status code or code.
 */
module ErrorFilter {
  import opened JsValues
  import opened ThorinErrors

  /** Three ignore lists, each of which may be missing. As `opt.ignore` a
      list is missing when it was not configured; in the resolved policy a
      list is missing when its axis is switched off (the source's `false`). */
  datatype Filter = Filter(
    namespaces: Option<seq<string>>,
    statusCodes: Option<seq<int>>,
    codes: Option<seq<string>>
  )

  /** `opt.ignore` as configured, before `Enabled` is applied to each list. */
  type IgnoreOptions = Filter

  /** `list && list.length > 0 ? list : false`. */
  function Enabled<T>(list: Option<seq<T>>): (r: Option<seq<T>>)
    ensures r.Some? <==> list.Some? && |list.value| > 0
    ensures r.Some? ==> r == list
  {
    if list.Some? && |list.value| > 0 then list else None
  }

  /** Resolves the three axes from `opt.ignore`; a missing `opt.ignore` switches all of them off. */
  function ResolveFilter(ignore: Option<IgnoreOptions>): (f: Filter)
    ensures ignore.None? ==> f == Filter(None, None, None)
  {
    match ignore
    case None => Filter(None, None, None)
    case Some(o) => Filter(Enabled(o.namespaces), Enabled(o.statusCodes), Enabled(o.codes))
  }

  /** The three early returns of `onThorinCustomError`, each an `indexOf` probe
      guarded by the axis being enabled and the error field being truthy. */
  predicate Ignores(f: Filter, err: ThorinError): (b: bool)
    ensures b <==>
      || (f.namespaces.Some? && TruthyStr(err.ns) && err.ns.value in f.namespaces.value)
      || (f.statusCodes.Some? && TruthyNum(err.statusCode) && err.statusCode.value in f.statusCodes.value)
      || (f.codes.Some? && TruthyStr(err.code) && err.code.value in f.codes.value)
  {
    if f.namespaces.Some? && TruthyStr(err.ns) && IndexOf(f.namespaces.value, err.ns.value) != -1 then true
    else if f.statusCodes.Some? && TruthyNum(err.statusCode) && IndexOf(f.statusCodes.value, err.statusCode.value) != -1 then true
    else f.codes.Some? && TruthyStr(err.code) && IndexOf(f.codes.value, err.code.value) != -1
  }

  /** A configured list hits a field when the list is non-empty and holds the truthy field. */
  ghost predicate ListHits<T>(list: Option<seq<T>>, field: Option<T>, truthy: bool) {
    list.Some? && |list.value| > 0 && truthy && field.Some? && field.value in list.value
  }

  /** An error is ignored exactly when one of the configured, non-empty lists
      holds the corresponding truthy field of the error. */
  lemma IgnoredExactly(ignore: Option<IgnoreOptions>, err: ThorinError)
    ensures Ignores(ResolveFilter(ignore), err) <==>
      ignore.Some? &&
      (|| ListHits(ignore.value.namespaces, err.ns, TruthyStr(err.ns))
       || ListHits(ignore.value.statusCodes, err.statusCode, TruthyNum(err.statusCode))
       || ListHits(ignore.value.codes, err.code, TruthyStr(err.code)))
  {
  }

  /** A list that is empty or missing never causes ignoring: the verdict does
      not depend on the error field of that axis at all. */
  lemma EmptyListNeverIgnores(ignore: IgnoreOptions, err: ThorinError, ns: Option<string>, statusCode: Option<int>, code: Option<string>)
    ensures (ignore.namespaces.None? || ignore.namespaces == Some([])) ==>
      Ignores(ResolveFilter(Some(ignore)), err) == Ignores(ResolveFilter(Some(ignore)), err.(ns := ns))
    ensures (ignore.statusCodes.None? || ignore.statusCodes == Some([])) ==>
      Ignores(ResolveFilter(Some(ignore)), err) == Ignores(ResolveFilter(Some(ignore)), err.(statusCode := statusCode))
    ensures (ignore.codes.None? || ignore.codes == Some([])) ==>
      Ignores(ResolveFilter(Some(ignore)), err) == Ignores(ResolveFilter(Some(ignore)), err.(code := code))
  {
  }

  /** What the hook does with an error: return early, throw, or hand it to
      `Sentry.captureException`. */
  datatype HookOutcome = Ignored | ThrewReferenceError(identifier: string) | Forwarded(err: ThorinError)

  /** `onThorinCustomError` as written: after the ignore checks the stray
      expression statement `aa` reads an undeclared identifier, so every error
      that is not ignored throws a ReferenceError and none is captured. */
  function OnCustomErrorAsWritten(f: Filter, err: ThorinError): (r: HookOutcome)
    ensures r.Ignored? <==> Ignores(f, err)
    ensures !r.Forwarded?
  {
    if Ignores(f, err) then Ignored else ThrewReferenceError("aa")
  }

  /** An error with a namespace and an inactive policy reaches the stray
      identifier instead of the capture call. */
  lemma StrayIdentifierBlocksCapture()
    ensures OnCustomErrorAsWritten(Filter(None, None, None), ThorinError(Some("app"), Some("X"), None, None))
            == ThrewReferenceError("aa")
  {
  }

  /** `onThorinCustomError` without the stray line: every error the policy
      keeps is forwarded unchanged to the capture call. */
  function OnCustomError(f: Filter, err: ThorinError): (r: HookOutcome)
    ensures r.Ignored? <==> Ignores(f, err)
    ensures !Ignores(f, err) ==> r == Forwarded(err)
  {
    if Ignores(f, err) then Ignored else Forwarded(err)
  }
}

=== FILE: event_scrubber.dfy ===
/**
 The `beforeSend` hook (`onBeforeSend` in lib/sentry.js): every event is
 enriched from a Thorin-style original exception, each exception value gets
 its type rewritten, each stack frame has its source context trimmed and its
 file name redacted. An exception raised inside the loop over exception values
 stops the loop; the partly scrubbed event is still returned.
 */
module EventScrubber {
  import opened JsValues
  import opened ThorinErrors

  /** A stack frame; `contextLine` is never touched by the scrubber. */
  datatype Frame = Frame(
    filename: Option<string>,
    preContext: Option<seq<string>>,
    contextLine: Option<string>,
    postContext: Option<seq<string>>
  )

  datatype Stacktrace = Stacktrace(frames: Option<seq<Frame>>)

  datatype Mechanism = Mechanism(mechType: Option<string>, handled: Option<bool>)

  /** One entry of `event.exception.values`. */
  datatype ExceptionValue = ExceptionValue(
    excType: Option<string>,
    message: Option<string>,
    stacktrace: Option<Stacktrace>,
    mechanism: Option<Mechanism>
  )

  datatype ExceptionList = ExceptionList(values: Option<seq<ExceptionValue>>)

  datatype Event = Event(
    exception: Option<ExceptionList>,
    tags: Option<map<string, JsData>>,
    extra: Option<map<string, JsData>>
  )

  /** The hint handed to `beforeSend`: the value that was originally thrown. */
  datatype Hint = Hint(originalException: Option<ThorinError>)

  /** `opt.contextLines`, whose two limits may each be missing. */
  datatype ContextLines = ContextLines(pre: Option<int>, post: Option<int>)

  /** What one run of the hook reads from the options: the two context limits
      (defaulted to 0), whether `opt.fullPath === true`, and the root path. */
  datatype ScrubConfig = ScrubConfig(pre: int, post: int, fullPath: bool, root: string)

  /** `const {pre = 0, post = 0} = opt.contextLines || {}` and
      `const fullPath = opt.fullPath === true`. */
  function ResolveConfig(contextLines: Option<ContextLines>, fullPath: Option<JsData>, root: string): (c: ScrubConfig)
    ensures c.fullPath <==> fullPath == Some(JBool(true))
    ensures contextLines.None? ==> c.pre == 0 && c.post == 0
    ensures contextLines.Some? && contextLines.value.pre.Some? ==> c.pre == contextLines.value.pre.value
    ensures contextLines.Some? && contextLines.value.post.Some? ==> c.post == contextLines.value.post.value
    ensures contextLines.Some? && contextLines.value.pre.None? ==> c.pre == 0
    ensures contextLines.Some? && contextLines.value.post.None? ==> c.post == 0
    ensures c.root == root
  {
    var cl := if contextLines.Some? then contextLines.value else ContextLines(None, None);
    ScrubConfig(
      if cl.pre.Some? then cl.pre.value else 0,
      if cl.post.Some? then cl.post.value else 0,
      fullPath == Some(JBool(true)),
      root)
  }

  /** The original exception counts only when it has a truthy `code`. */
  function OriginalError(hint: Hint): (r: Option<ThorinError>)
    ensures r.Some? <==> hint.originalException.Some? && TruthyStr(hint.originalException.value.code)
    ensures r.Some? ==> r == hint.originalException
  {
    if hint.originalException.Some? && TruthyStr(hint.originalException.value.code)
    then hint.originalException else None
  }

  /** The last `min(n, |lines|)` lines, in their original order. */
  function LastLines(lines: seq<string>, n: nat): seq<string> {
    lines[|lines| - Min(n, |lines|)..]
  }

  /** The handling of one context list (`pre_context` or `post_context`) with
      limit `n`: a missing list stays missing, a zero limit deletes the key, a
      positive limit keeps the last `n` lines, a negative limit changes nothing. */
  function TrimContext(ctx: Option<seq<string>>, n: int): (r: Option<seq<string>>)
    ensures ctx.None? ==> r.None?
    ensures ctx.Some? && n == 0 ==> r.None?
    ensures ctx.Some? && n > 0 ==> r == Some(LastLines(ctx.value, n))
    ensures n < 0 ==> r == ctx
  {
    match ctx
    case None => None
    case Some(lines) =>
      if n == 0 then None
      else if n > 0 then Some(SpliceFront(lines, |lines| - n))
      else ctx
  }

  /** `f.filename.replace(ROOT_PATH, '.')` unless `fullPath`; a falsy file name is kept. */
  function RedactFilename(c: ScrubConfig, filename: Option<string>): (r: Option<string>)
    ensures r.Some? == filename.Some?
    ensures c.fullPath || !TruthyStr(filename) ==> r == filename
    ensures TruthyStr(filename) && !c.fullPath && !Contains(filename.value, c.root) ==> r == filename
    ensures TruthyStr(filename) && !c.fullPath && Contains(filename.value, c.root) ==>
      |r.value| == |filename.value| - |c.root| + 1
    ensures TruthyStr(filename) && !c.fullPath ==>
      forall k :: FirstOccurrence(filename.value, c.root, k) ==> r.value == filename.value[..k] + "." + filename.value[k + |c.root|..]
  {
    if TruthyStr(filename) && !c.fullPath then Some(ReplaceFirst(filename.value, c.root, ".")) else filename
  }

  /** The body of the inner loop over the frames of one exception value. */
  function ScrubFrame(c: ScrubConfig, f: Frame): (r: Frame)
    ensures r.contextLine == f.contextLine
  {
    f.(preContext := TrimContext(f.preContext, c.pre),
       postContext := TrimContext(f.postContext, c.post),
       filename := RedactFilename(c, f.filename))
  }

  function ScrubFrames(c: ScrubConfig, frames: seq<Frame>): (r: seq<Frame>)
    ensures |r| == |frames|
    ensures forall j :: 0 <= j < |frames| ==> r[j] == ScrubFrame(c, frames[j])
  {
    seq(|frames|, j requires 0 <= j < |frames| => ScrubFrame(c, frames[j]))
  }

  /** The frames of an exception value, or none when it has no
      `stacktrace` or no `stacktrace.frames`. */
  function FramesOf(v: ExceptionValue): seq<Frame> {
    if v.stacktrace.Some? && v.stacktrace.value.frames.Some? then v.stacktrace.value.frames.value else []
  }

  /** Scrubs every frame of `v`, leaving everything else as it is. */
  function WithScrubbedFrames(c: ScrubConfig, v: ExceptionValue): (r: ExceptionValue)
    ensures r.excType == v.excType && r.message == v.message && r.mechanism == v.mechanism
    ensures FramesOf(r) == ScrubFrames(c, FramesOf(v))
    ensures r.stacktrace.Some? == v.stacktrace.Some?
    ensures r.stacktrace.Some? ==> r.stacktrace.value.frames.Some? == v.stacktrace.value.frames.Some?
  {
    if v.stacktrace.Some? && v.stacktrace.value.frames.Some? then
      v.(stacktrace := Some(v.stacktrace.value.(frames := Some(ScrubFrames(c, v.stacktrace.value.frames.value)))))
    else v
  }

  /** The type an exception value carries after `val.type = \`Thorin: ${code}\``. */
  function RewrittenType(orig: Option<ThorinError>, v: ExceptionValue): (r: Option<string>)
    ensures !(orig.Some? && TruthyStr(orig.value.code)) ==> r == v.excType
    ensures orig.Some? && TruthyStr(orig.value.code) ==>
      && r.Some? && |r.value| == 8 + |orig.value.code.value|
      && r.value[..8] == "Thorin: " && r.value[8..] == orig.value.code.value
  {
    if orig.Some? && TruthyStr(orig.value.code) then Some("Thorin: " + orig.value.code.value) else v.excType
  }

  /** A truthy type containing "Thorin" marks a framework error. */
  predicate MarksThorin(excType: Option<string>): (b: bool)
    ensures b <==> excType.Some? && excType.value != "" && exists i :: OccursAt(excType.value, "Thorin", i)
  {
    TruthyStr(excType) && Contains(excType.value, "Thorin")
  }

  /** One pass of the outer loop body. The boolean is false when
      `val.mechanism.type = 'thorin'` throws because `mechanism` is missing;
      the value is then returned as far as it got, without a mechanism. */
  function ScrubValue(c: ScrubConfig, orig: Option<ThorinError>, v: ExceptionValue): (r: (ExceptionValue, bool))
    ensures r.0.excType == RewrittenType(orig, v)
    ensures r.0.message == v.message
    ensures FramesOf(r.0) == ScrubFrames(c, FramesOf(v))
    ensures r.0.stacktrace.Some? == v.stacktrace.Some?
    ensures r.0.stacktrace.Some? ==> r.0.stacktrace.value.frames.Some? == v.stacktrace.value.frames.Some?
    ensures !r.1 <==> MarksThorin(RewrittenType(orig, v)) && v.mechanism.None?
    ensures r.1 && MarksThorin(RewrittenType(orig, v)) ==>
      r.0.mechanism == Some(v.mechanism.value.(mechType := Some("thorin")))
    ensures !MarksThorin(RewrittenType(orig, v)) || !r.1 ==> r.0.mechanism == v.mechanism
  {
    var typed := v.(excType := RewrittenType(orig, v));
    var framed := WithScrubbedFrames(c, typed);
    if MarksThorin(framed.excType) then
      if framed.mechanism.None? then (framed, false)
      else (framed.(mechanism := Some(framed.mechanism.value.(mechType := Some("thorin")))), true)
    else (framed, true)
  }

  /** Scrubbing `v` throws. */
  predicate Throws(c: ScrubConfig, orig: Option<ThorinError>, v: ExceptionValue) {
    !ScrubValue(c, orig, v).1
  }

  /** None of the first `i` values throws, so the loop reaches value `i`. */
  predicate Reaches(c: ScrubConfig, orig: Option<ThorinError>, vs: seq<ExceptionValue>, i: int)
    requires 0 <= i <= |vs|
  {
    forall k :: 0 <= k < i ==> !Throws(c, orig, vs[k])
  }

  /** The loop reaches value `i` of `vs` exactly when the first value does not
      throw and the loop over the rest reaches value `i - 1`. */
  lemma ReachesStep(c: ScrubConfig, orig: Option<ThorinError>, vs: seq<ExceptionValue>)
    requires |vs| > 0
    ensures forall i :: 1 <= i <= |vs| ==>
      (Reaches(c, orig, vs, i) <==> !Throws(c, orig, vs[0]) && Reaches(c, orig, vs[1..], i - 1))
  {
    var tail := vs[1..];
    forall i | 1 <= i <= |vs|
      ensures Reaches(c, orig, vs, i) <==> !Throws(c, orig, vs[0]) && Reaches(c, orig, tail, i - 1)
    {
      if !Throws(c, orig, vs[0]) && Reaches(c, orig, tail, i - 1) {
        forall k | 0 <= k < i ensures !Throws(c, orig, vs[k]) {
          if k > 0 { assert vs[k] == tail[k - 1]; }
        }
      }
      if Reaches(c, orig, vs, i) {
        assert !Throws(c, orig, vs[0]);
        forall k | 0 <= k < i - 1 ensures !Throws(c, orig, tail[k]) {
          assert tail[k] == vs[k + 1];
        }
      }
    }
  }

  /** The value-by-value description of the loop's result on `tail`. */
  predicate LoopResult(c: ScrubConfig, orig: Option<ThorinError>, vs: seq<ExceptionValue>, r: seq<ExceptionValue>, complete: bool) {
    && |r| == |vs|
    && (complete <==> Reaches(c, orig, vs, |vs|))
    && forall i :: 0 <= i < |vs| ==>
         r[i] == if Reaches(c, orig, vs, i) then ScrubValue(c, orig, vs[i]).0 else vs[i]
  }

  /** The loop's result on `vs` is the first value's scrub followed by the
      rest: the untouched tail when the first value throws, otherwise the
      loop's result on the tail. */
  lemma LoopResultCons(c: ScrubConfig, orig: Option<ThorinError>, vs: seq<ExceptionValue>, rest: seq<ExceptionValue>, complete: bool)
    requires |vs| > 0
    requires Throws(c, orig, vs[0]) ==> rest == vs[1..] && !complete
    requires !Throws(c, orig, vs[0]) ==> LoopResult(c, orig, vs[1..], rest, complete)
    ensures LoopResult(c, orig, vs, [ScrubValue(c, orig, vs[0]).0] + rest, complete)
  {
    var tail := vs[1..];
    var r := [ScrubValue(c, orig, vs[0]).0] + rest;
    ReachesStep(c, orig, vs);
    assert |rest| == |tail|;
    forall i | 0 <= i < |vs|
      ensures r[i] == if Reaches(c, orig, vs, i) then ScrubValue(c, orig, vs[i]).0 else vs[i]
    {
      if i > 0 {
        assert r[i] == rest[i - 1];
        assert vs[i] == tail[i - 1];
        if Throws(c, orig, vs[0]) {
          assert !Reaches(c, orig, vs, i);
        }
      }
    }
  }

  /** The outer loop with its try/catch: values are scrubbed in order until one
      throws; that value keeps what was done to it, later values are untouched.
      The boolean is true when the loop ran to completion. */
  function ScrubValues(c: ScrubConfig, orig: Option<ThorinError>, vs: seq<ExceptionValue>): (r: (seq<ExceptionValue>, bool))
    ensures |r.0| == |vs|
    ensures r.1 <==> Reaches(c, orig, vs, |vs|)
    ensures forall i :: 0 <= i < |vs| ==>
      r.0[i] == if Reaches(c, orig, vs, i) then ScrubValue(c, orig, vs[i]).0 else vs[i]
    decreases |vs|
  {
    if |vs| == 0 then ([], true)
    else
      var (v1, ok) := ScrubValue(c, orig, vs[0]);
      var rest := if ok then ScrubValues(c, orig, vs[1..]) else (vs[1..], false);
      LoopResultCons(c, orig, vs, rest.0, rest.1);
      ([v1] + rest.0, rest.1)
  }

  /** Tag and extra-data enrichment, run before the try block. */
  function Enrich(orig: Option<ThorinError>, e: Event): (r: Event)
    ensures r.exception == e.exception
    ensures !(orig.Some? && TruthyStr(orig.value.code) && TruthyStr(orig.value.ns)) ==> r == e
    ensures orig.Some? && TruthyStr(orig.value.code) && TruthyStr(orig.value.ns) ==>
      && r.tags.Some?
      && r.tags.value.Keys == {"namespace", "code"} + (if TruthyNum(orig.value.statusCode) then {"status_code"} else {})
      && r.tags.value["namespace"] == JStr(orig.value.ns.value)
      && r.tags.value["code"] == JStr(orig.value.code.value)
      && (TruthyNum(orig.value.statusCode) ==> r.tags.value["status_code"] == JNum(orig.value.statusCode.value))
      && (Truthy(orig.value.data) ==>
            && r.extra.Some?
            && r.extra.value == (if e.extra.Some? then e.extra.value else map[])["data" := orig.value.data.value])
      && (!Truthy(orig.value.data) ==> r.extra == e.extra)
  {
    if orig.Some? && TruthyStr(orig.value.code) && TruthyStr(orig.value.ns) then
      var err := orig.value;
      var tags := map["namespace" := JStr(err.ns.value), "code" := JStr(err.code.value)];
      var tags' := if TruthyNum(err.statusCode) then tags["status_code" := JNum(err.statusCode.value)] else tags;
      var e1 := e.(tags := Some(tags'));
      if Truthy(err.data) then
        var extra := if e.extra.Some? then e.extra.value else map[];
        e1.(extra := Some(extra["data" := err.data.value]))
      else e1
    else e
  }

  /** The values the loop walks, or none when `event.exception` or
      `event.exception.values` is missing. */
  function ValuesOf(e: Event): seq<ExceptionValue> {
    if e.exception.Some? && e.exception.value.values.Some? then e.exception.value.values.value else []
  }

  /** `onBeforeSend`: enrichment, then the guarded loop; the event is always
      returned, never dropped, and keeps its number of exception values. */
  function BeforeSend(c: ScrubConfig, hint: Hint, e: Event): (r: Event)
    ensures r.exception.Some? == e.exception.Some?
    ensures r.exception.Some? ==> r.exception.value.values.Some? == e.exception.value.values.Some?
    ensures ValuesOf(r) == ScrubValues(c, OriginalError(hint), ValuesOf(e)).0
    ensures r.tags == Enrich(OriginalError(hint), e).tags
    ensures r.extra == Enrich(OriginalError(hint), e).extra
  {
    var orig := OriginalError(hint);
    var e1 := Enrich(orig, e);
    if e1.exception.Some? && e1.exception.value.values.Some? then
      var scrubbed := ScrubValues(c, orig, e1.exception.value.values.value).0;
      e1.(exception := Some(e1.exception.value.(values := Some(scrubbed))))
    else e1
  }
}

=== FILE: failure_interceptor.dfy ===
/**
 The handler installed for `unhandledRejection` and `uncaughtException`
 (`onUnhandledRejection` in lib/sentry.js), reduced to its guard flag and the
 ordered effects it has on the outside world. The first fatal signal captures,
 flushes and schedules `process.exit(1)`; every later one is only logged.
 */
module FailureInterceptor {
  import opened JsValues

  /** What the handler does outside itself, in the order it does it. */
  datatype Effect =
    | ConsoleError(e: JsData)                // `console.error(e)`
    | CaptureException(e: JsData)            // `Sentry.captureException(e)`
    | Flush                                  // `await Sentry.flush()`
    | LogFlushFailure                        // the `logger.error`/`logger.debug` pair in the catch
    | ScheduleExit(code: int, delayMs: nat)  // `setTimeout(() => process.exit(code), delayMs)`

  /** How the SDK behaves while one signal is handled. `Sentry.flush()` is
      awaited without a timeout, so it may also never settle (FlushPending):
      the handler then stays suspended at the `await` and never reaches the
      catch or the `setTimeout` after it. */
  datatype SdkBehaviour = SdkOk | CaptureThrows | FlushThrows | FlushPending

  /** The try block finishes, normally or through the catch. */
  predicate Settles(s: Signal) {
    s.sdk != FlushPending
  }

  /** Capture or flush threw, so the catch runs. */
  predicate Throws(s: Signal) {
    s.sdk == CaptureThrows || s.sdk == FlushThrows
  }

  /** One fatal signal: the failure value and how the SDK reacts to it. */
  datatype Signal = Signal(e: JsData, sdk: SdkBehaviour)

  /** The closure variable `isShuttingDown`. */
  datatype Guard = Guard(isShuttingDown: bool)

  const ExitCode: int := 1
  const ExitDelayMs: nat := 50

  /** How many effects of `es` satisfy `kind`. */
  function Count(es: seq<Effect>, kind: Effect -> bool): nat {
    if |es| == 0 then 0 else Count(es[..|es| - 1], kind) + (if kind(es[|es| - 1]) then 1 else 0)
  }

  /** The try block as far as it gets: capture, then flush unless the capture
      threw; the catch logs when either of them threw. A flush that never
      settles ends the trace after `Flush`. */
  function Attempt(s: Signal): (r: seq<Effect>)
    ensures 1 <= |r| <= 3 && r[0] == CaptureException(s.e)
    ensures Flush in r <==> s.sdk != CaptureThrows
    ensures LogFlushFailure in r <==> Throws(s)
    ensures Flush in r ==> r[1] == Flush
    ensures forall k :: 1 <= k < |r| ==> r[k] == Flush || r[k] == LogFlushFailure
  {
    [CaptureException(s.e)]
    + (if s.sdk != CaptureThrows then [Flush] else [])
    + (if Throws(s) then [LogFlushFailure] else [])
  }

  /** One call of the handler, up to where it finishes or stays suspended. */
  function OnFatal(g: Guard, s: Signal): (r: (Guard, seq<Effect>))
    ensures r.0.isShuttingDown
    ensures |r.1| >= 1 && r.1[0] == ConsoleError(s.e)
    ensures g.isShuttingDown ==> r.1 == [ConsoleError(s.e)]
    ensures !g.isShuttingDown ==>
      && |r.1| >= 3
      && r.1[1] == CaptureException(s.e)
      && (Flush in r.1 <==> s.sdk != CaptureThrows)
      && (LogFlushFailure in r.1 <==> Throws(s))
      && (ScheduleExit(ExitCode, ExitDelayMs) in r.1 <==> Settles(s))
      && (Settles(s) ==> r.1[|r.1| - 1] == ScheduleExit(ExitCode, ExitDelayMs))
      && (!Settles(s) ==> r.1 == [ConsoleError(s.e), CaptureException(s.e), Flush])
  {
    if g.isShuttingDown then (g, [ConsoleError(s.e)])
    else
      var exit: seq<Effect> := if Settles(s) then [ScheduleExit(ExitCode, ExitDelayMs)] else [];
      (Guard(true), [ConsoleError(s.e)] + Attempt(s) + exit)
  }

  /** The handler applied to a sequence of signals, in arrival order. */
  function Run(g: Guard, signals: seq<Signal>): (Guard, seq<Effect>)
  {
    if |signals| == 0 then (g, [])
    else
      var (g1, es1) := Run(g, signals[..|signals| - 1]);
      var (g2, es2) := OnFatal(g1, signals[|signals| - 1]);
      (g2, es1 + es2)
  }

  lemma {:induction false} CountAppend(xs: seq<Effect>, ys: seq<Effect>, kind: Effect -> bool)
    ensures Count(xs + ys, kind) == Count(xs, kind) + Count(ys, kind)
    decreases |ys|
  {
    if |ys| == 0 {
      assert xs + ys == xs;
    } else {
      var zs := xs + ys;
      assert zs[..|zs| - 1] == xs + ys[..|ys| - 1];
      CountAppend(xs, ys[..|ys| - 1], kind);
    }
  }

  predicate IsCapture(f: Effect) { f.CaptureException? }
  predicate IsFlush(f: Effect) { f.Flush? }
  predicate IsExit(f: Effect) { f.ScheduleExit? }
  predicate IsConsoleLog(f: Effect) { f.ConsoleError? }

  lemma CountSingle(x: Effect, kind: Effect -> bool)
    ensures Count([x], kind) == if kind(x) then 1 else 0
  {
    assert [x][..0] == [];
  }

  /** The counts of one handler call: one console line always; one capture
      and at most one flush when the guard was down, none otherwise; one exit
      when the guard was down and the try block settled, none otherwise. */
  lemma OnFatalCounts(g: Guard, s: Signal)
    ensures Count(OnFatal(g, s).1, IsConsoleLog) == 1
    ensures Count(OnFatal(g, s).1, IsCapture) == if g.isShuttingDown then 0 else 1
    ensures Count(OnFatal(g, s).1, IsExit) == if g.isShuttingDown || !Settles(s) then 0 else 1
    ensures Count(OnFatal(g, s).1, IsFlush) <= if g.isShuttingDown then 0 else 1
  {
    OnFatalCountsOf(g, s, IsConsoleLog);
    AttemptCounts(s, IsConsoleLog);
    OnFatalCountsOf(g, s, IsCapture);
    AttemptCounts(s, IsCapture);
    OnFatalCountsOf(g, s, IsExit);
    AttemptCounts(s, IsExit);
    OnFatalCountsOf(g, s, IsFlush);
    AttemptCounts(s, IsFlush);
  }

  /** The count of effects satisfying `kind` in one handler call, as the
      console line plus, when the guard was down, the attempt and, when the
      try block settled, the exit. */
  lemma OnFatalCountsOf(g: Guard, s: Signal, kind: Effect -> bool)
    ensures Count(OnFatal(g, s).1, kind) ==
      (if kind(ConsoleError(s.e)) then 1 else 0)
      + (if g.isShuttingDown then 0
         else Count(Attempt(s), kind) + (if Settles(s) && kind(ScheduleExit(ExitCode, ExitDelayMs)) then 1 else 0))
  {
    var log := [ConsoleError(s.e)];
    CountSingle(ConsoleError(s.e), kind);
    if !g.isShuttingDown {
      var exit: seq<Effect> := if Settles(s) then [ScheduleExit(ExitCode, ExitDelayMs)] else [];
      CountSingle(ScheduleExit(ExitCode, ExitDelayMs), kind);
      assert Count([], kind) == 0;
      CountAppend(log, Attempt(s), kind);
      CountAppend(log + Attempt(s), exit, kind);
    }
  }

  /** One attempt captures once and flushes at most once. */
  lemma AttemptCounts(s: Signal, kind: Effect -> bool)
    ensures Count(Attempt(s), kind) ==
      (if kind(CaptureException(s.e)) then 1 else 0)
      + (if s.sdk != CaptureThrows && kind(Flush) then 1 else 0)
      + (if Throws(s) && kind(LogFlushFailure) then 1 else 0)
  {
    var flush: seq<Effect> := if s.sdk != CaptureThrows then [Flush] else [];
    var fail: seq<Effect> := if Throws(s) then [LogFlushFailure] else [];
    CountSingle(CaptureException(s.e), kind);
    CountSingle(Flush, kind);
    CountSingle(LogFlushFailure, kind);
    assert Count([], kind) == 0;
    CountAppend([CaptureException(s.e)], flush, kind);
    CountAppend([CaptureException(s.e)] + flush, fail, kind);
  }

  /** Across any sequence of fatal signals, every signal is logged; capture
      happens exactly once when the guard starts down and at least one signal
      arrives, and never otherwise; the exit is scheduled at most once, and
      exactly once when, in addition, the first signal's try block settles;
      the flush never outnumbers the capture; once raised the guard stays
      raised. */
  lemma {:induction false} AtMostOneShutdown(g: Guard, signals: seq<Signal>)
    ensures var (g', es) := Run(g, signals);
      && Count(es, IsConsoleLog) == |signals|
      && Count(es, IsCapture) == (if !g.isShuttingDown && |signals| > 0 then 1 else 0)
      && Count(es, IsExit) == (if !g.isShuttingDown && |signals| > 0 && Settles(signals[0]) then 1 else 0)
      && Count(es, IsExit) <= Count(es, IsCapture)
      && Count(es, IsFlush) <= Count(es, IsCapture)
      && (g'.isShuttingDown <==> g.isShuttingDown || |signals| > 0)
    decreases |signals|
  {
    if |signals| > 0 {
      var init := signals[..|signals| - 1];
      AtMostOneShutdown(g, init);
      var (g1, es1) := Run(g, init);
      var (g2, es2) := OnFatal(g1, signals[|signals| - 1]);
      if |init| > 0 {
        assert init[0] == signals[0];
      }
      OnFatalCounts(g1, signals[|signals| - 1]);
      CountAppend(es1, es2, IsConsoleLog);
      CountAppend(es1, es2, IsCapture);
      CountAppend(es1, es2, IsExit);
      CountAppend(es1, es2, IsFlush);
    }
  }
}

=== FILE: integration_selector.dfy ===
/**
 The `integrations` callback handed to `Sentry.init` in lib/sentry.js: from the
 SDK's default integrations and `opt.integrations` it computes the list of
 integrations to install. A configured list is an allow-list by name over the
 defaults, a fresh deduplication integration and the configured instances.
 */
module IntegrationSelector {
  import opened JsValues

  /** An integration object; its `name` may be missing, `options` stands for
      whatever else the object carries. */
  datatype Integration = Integration(name: Option<string>, options: JsData)

  /** The instance built by `new Integrations.Dedupe()`. */
  const Dedupe: Integration := Integration(Some("Dedupe"), JNull)

  /** One entry of `opt.integrations`: an object (an integration instance), a
      string (an integration name), or anything else (null, a number, ...). */
  datatype Entry = Instance(integration: Integration) | Name(name: string) | Other

  /** `opt.integrations`: missing, `false`, or an array of entries. */
  datatype Setting = Unset | Disabled | Listed(entries: seq<Entry>)

  /** The name one entry contributes to `names`: an instance its (possibly
      missing) name, a non-empty string itself, anything else nothing. */
  function NameOfEntry(en: Entry): seq<Option<string>> {
    match en
    case Instance(i) => [i.name]
    case Name(s) => if s != "" then [Some(s)] else []
    case Other => []
  }

  function InstanceOfEntry(en: Entry): seq<Integration> {
    if en.Instance? then [en.integration] else []
  }

  /** `names` after the `forEach` over the entries. */
  function NamesOf(entries: seq<Entry>): seq<Option<string>> {
    if |entries| == 0 then [] else NamesOf(entries[..|entries| - 1]) + NameOfEntry(entries[|entries| - 1])
  }

  /** The instances the `forEach` pushes, in configuration order. */
  function InstancesOf(entries: seq<Entry>): seq<Integration> {
    if |entries| == 0 then [] else InstancesOf(entries[..|entries| - 1]) + InstanceOfEntry(entries[|entries| - 1])
  }

  /** `xs.filter(x => names.indexOf(x.name) !== -1)`. */
  function KeepNamed(xs: seq<Integration>, names: seq<Option<string>>): (r: seq<Integration>)
    ensures |r| <= |xs|
    ensures forall x :: x in r <==> x in xs && x.name in names
  {
    if |xs| == 0 then []
    else
      var init := KeepNamed(xs[..|xs| - 1], names);
      var last := xs[|xs| - 1];
      assert xs == xs[..|xs| - 1] + [last];
      if IndexOf(names, last.name) != -1 then init + [last] else init
  }

  /** The list the callback returns, stated as a function of its inputs. */
  function Selected(setting: Setting, defaults: seq<Integration>): seq<Integration> {
    match setting
    case Listed(entries) => KeepNamed(defaults + [Dedupe] + InstancesOf(entries), NamesOf(entries))
    case _ => defaults
  }

  /** The `forEach` over the configured entries: instances are pushed and
      their names recorded, non-empty strings are recorded, the rest skipped. */
  method CollectEntries(entries: seq<Entry>) returns (pushed: seq<Integration>, names: seq<Option<string>>)
    ensures pushed == InstancesOf(entries)
    ensures names == NamesOf(entries)
  {
    pushed, names := [], [];
    var i := 0;
    while i < |entries|
      invariant 0 <= i <= |entries|
      invariant pushed == InstancesOf(entries[..i])
      invariant names == NamesOf(entries[..i])
    {
      assert entries[..i + 1][..i] == entries[..i];
      match entries[i] {
        case Instance(inst) =>
          pushed := pushed + [inst];
          names := names + [inst.name];
        case Name(s) =>
          if s != "" {
            names := names + [Some(s)];
          }
        case Other =>
      }
      i := i + 1;
    }
    assert entries[..i] == entries;
  }

  /** The final `filter`: keeps, in order, the integrations whose name was recorded. */
  method FilterByName(all: seq<Integration>, names: seq<Option<string>>) returns (r: seq<Integration>)
    ensures r == KeepNamed(all, names)
  {
    r := [];
    var j := 0;
    while j < |all|
      invariant 0 <= j <= |all|
      invariant r == KeepNamed(all[..j], names)
    {
      assert all[..j + 1][..j] == all[..j];
      if IndexOf(names, all[j].name) != -1 {
        r := r + [all[j]];
      }
      j := j + 1;
    }
    assert all[..j] == all;
  }

  /** The callback as written: a falsy setting returns the defaults (so the
      `=== false` branch after it is never reached); otherwise the Dedupe
      instance and every configured instance are appended to the defaults,
      the names are collected, and the whole list is filtered by name. */
  method SelectIntegrations(setting: Setting, defaults: seq<Integration>) returns (r: seq<Integration>)
    ensures r == Selected(setting, defaults)
  {
    if !setting.Listed? {
      return defaults;
    }
    var pushed, names := CollectEntries(setting.entries);
    r := FilterByName(defaults + [Dedupe] + pushed, names);
  }

  /** Filtering distributes over concatenation, so the result keeps the
      relative order of the integrations it keeps. */
  lemma {:induction false} KeepNamedAppend(xs: seq<Integration>, ys: seq<Integration>, names: seq<Option<string>>)
    ensures KeepNamed(xs + ys, names) == KeepNamed(xs, names) + KeepNamed(ys, names)
    decreases |ys|
  {
    if |ys| > 0 {
      var zs := xs + ys;
      assert zs[..|zs| - 1] == xs + ys[..|ys| - 1];
      assert zs[|zs| - 1] == ys[|ys| - 1];
      KeepNamedAppend(xs, ys[..|ys| - 1], names);
    } else {
      assert xs + ys == xs;
    }
  }

  /** With a configured list, the result is exactly the integrations among
      the defaults, Dedupe and the configured instances whose name was
      configured, defaults first, then Dedupe, then the instances. */
  lemma ListedSelection(entries: seq<Entry>, defaults: seq<Integration>)
    ensures var names := NamesOf(entries); var r := Selected(Listed(entries), defaults);
      && (forall x :: x in r <==> (x in defaults || x == Dedupe || x in InstancesOf(entries)) && x.name in names)
      && r == KeepNamed(defaults, names) + KeepNamed([Dedupe], names) + KeepNamed(InstancesOf(entries), names)
  {
    var names := NamesOf(entries);
    KeepNamedAppend(defaults + [Dedupe], InstancesOf(entries), names);
    KeepNamedAppend(defaults, [Dedupe], names);
  }

  /** The names collected are the instance names and non-empty strings of the configuration. */
  lemma {:induction false} NamesOfMembers(entries: seq<Entry>, n: Option<string>)
    ensures n in NamesOf(entries) <==>
      exists k :: 0 <= k < |entries| && n in NameOfEntry(entries[k])
    decreases |entries|
  {
    if |entries| > 0 {
      var init := entries[..|entries| - 1];
      NamesOfMembers(init, n);
      if n in NamesOf(init) {
        var k :| 0 <= k < |init| && n in NameOfEntry(init[k]);
        assert entries[k] == init[k];
      }
      if exists k :: 0 <= k < |entries| && n in NameOfEntry(entries[k]) {
        var k :| 0 <= k < |entries| && n in NameOfEntry(entries[k]);
        if k < |init| {
          assert entries[k] == init[k];
        }
      }
    }
  }

  /** Dedupe is always injected but survives the filter only when some entry
      names it: a "Dedupe" string or an instance called "Dedupe". */
  lemma DedupeOnlyIfNamed(entries: seq<Entry>, defaults: seq<Integration>)
    ensures Dedupe in Selected(Listed(entries), defaults) <==>
      exists k :: 0 <= k < |entries| && Some("Dedupe") in NameOfEntry(entries[k])
  {
    NamesOfMembers(entries, Some("Dedupe"));
  }

  /** An empty configured list selects nothing, not even the defaults. */
  lemma EmptyListSelectsNothing(defaults: seq<Integration>)
    ensures Selected(Listed([]), defaults) == []
  {
    assert NamesOf([]) == [];
    KeepNamedNoNames(defaults + [Dedupe] + InstancesOf([]));
  }

  lemma {:induction false} KeepNamedNoNames(xs: seq<Integration>)
    ensures KeepNamed(xs, []) == []
    decreases |xs|
  {
    if |xs| > 0 {
      KeepNamedNoNames(xs[..|xs| - 1]);
    }
  }

  /** Defaults `[A, B]` with the configuration `["A"]` select `[A]` alone;
      the injected Dedupe is filtered out because it is not named. */
  lemma SingleNameExample(a: Integration, b: Integration)
    requires a.name == Some("A") && b.name == Some("B")
    ensures Selected(Listed([Name("A")]), [a, b]) == [a]
  {
    var entries := [Name("A")];
    assert entries[..0] == [];
    assert NamesOf(entries) == [Some("A")];
    assert InstancesOf(entries) == [];
    var names := NamesOf(entries);
    ListedSelection(entries, [a, b]);
    assert KeepNamed([Dedupe], names) == [] by {
      assert [Dedupe][..0] == [];
    }
    assert KeepNamed([], names) == [];
    assert KeepNamed([a, b], names) == [a] by {
      assert [a, b][..1] == [a];
      assert [a][..0] == [];
      assert IndexOf(names, a.name) == 0;
      assert IndexOf(names, b.name) == -1;
    }
  }

  /** With `false` the callback keeps every default: the branch meant to
      return an empty list sits behind the falsy test and is never reached. */
  lemma FalseKeepsDefaults(defaults: seq<Integration>)
    ensures Selected(Disabled, defaults) == defaults
    ensures Selected(Unset, defaults) == defaults
  {
  }

  /** The callback with its `false` branch reachable: `false` disables every
      integration, the other settings are treated as before. */
  method SelectIntegrationsIntended(setting: Setting, defaults: seq<Integration>) returns (r: seq<Integration>)
    ensures setting.Disabled? ==> r == []
    ensures setting.Unset? ==> r == defaults
    ensures setting.Listed? ==> r == KeepNamed(defaults + [Dedupe] + InstancesOf(setting.entries), NamesOf(setting.entries))
  {
    if setting.Disabled? {
      return [];
    }
    r := SelectIntegrations(setting, defaults);
  }
}

=== FILE: js_values.dfy ===
/**
 The small part of JavaScript the plugin leans on: values that may be
 `undefined`, truthiness, `Array.prototype.indexOf`, `String.prototype.indexOf`
 and `String.prototype.replace` with a string pattern, and
 `Array.prototype.splice` starting at index 0.
 */
module JsValues {

  /** A property that may be `undefined` (None) or hold a value. */
  datatype Option<+T> = None | Some(value: T)

  /** An arbitrary JSON-like payload: error data, tag values, thrown values. */
  datatype JsData =
    | JNull
    | JBool(b: bool)
    | JNum(n: int)
    | JStr(s: string)
    | JArray(items: seq<JsData>)
    | JObject(fields: seq<(string, JsData)>)

  /** JavaScript truthiness of a payload; arrays and objects are always truthy. */
  predicate Truthy(d: Option<JsData>) {
    match d
    case None => false
    case Some(JNull) => false
    case Some(JBool(b)) => b
    case Some(JNum(n)) => n != 0
    case Some(JStr(s)) => s != ""
    case Some(JArray(_)) => true
    case Some(JObject(_)) => true
  }

  /** A string property is truthy when it is present and not "". */
  predicate TruthyStr(s: Option<string>) {
    s.Some? && s.value != ""
  }

  /** A numeric property is truthy when it is present and not 0. */
  predicate TruthyNum(n: Option<int>) {
    n.Some? && n.value != 0
  }

  function Min(a: int, b: int): int {
    if a <= b then a else b
  }

  function Max(a: int, b: int): int {
    if a <= b then b else a
  }

  /** `Array.prototype.indexOf` with strict equality: the first position of
      `x`, or -1 when `x` does not occur. */
  function IndexOf<T(==)>(s: seq<T>, x: T): (r: int)
    ensures -1 <= r < |s|
    ensures r == -1 <==> x !in s
    ensures 0 <= r ==> s[r] == x && x !in s[..r]
    decreases |s|
  {
    if |s| == 0 then -1
    else if s[0] == x then 0
    else
      var k := IndexOf(s[1..], x);
      assert s == [s[0]] + s[1..];
      if k == -1 then -1
      else
        assert s[..k + 1] == [s[0]] + s[1..][..k];
        k + 1
  }

  /** `pat` occurs in `s` starting at position `i`. */
  predicate OccursAt<T(==)>(s: seq<T>, pat: seq<T>, i: int) {
    0 <= i && i + |pat| <= |s| && s[i..i + |pat|] == pat
  }

  /** `k` is the first position at which `pat` occurs in `s`. */
  predicate FirstOccurrence<T(==)>(s: seq<T>, pat: seq<T>, k: int) {
    OccursAt(s, pat, k) && forall i :: 0 <= i < k ==> !OccursAt(s, pat, i)
  }

  /** `String.prototype.indexOf` with a string argument: the first position at
      which `pat` occurs in `s`, or -1. The empty pattern occurs at 0. */
  function IndexOfSub<T(==)>(s: seq<T>, pat: seq<T>): (r: int)
    ensures -1 <= r <= |s|
    ensures r == -1 <==> forall i :: !OccursAt(s, pat, i)
    ensures 0 <= r ==> OccursAt(s, pat, r) && forall i :: 0 <= i < r ==> !OccursAt(s, pat, i)
    decreases |s|
  {
    if |pat| > |s| then
      assert forall i :: !OccursAt(s, pat, i);
      -1
    else if s[..|pat|] == pat then
      assert OccursAt(s, pat, 0);
      0
    else
      var k := IndexOfSub(s[1..], pat);
      assert !OccursAt(s, pat, 0);
      assert forall i :: 0 <= i ==> (OccursAt(s, pat, i + 1) <==> OccursAt(s[1..], pat, i)) by {
        forall i | 0 <= i
          ensures OccursAt(s, pat, i + 1) <==> OccursAt(s[1..], pat, i)
        {
          if i + 1 + |pat| <= |s| {
            assert s[1..][i..i + |pat|] == s[i + 1..i + 1 + |pat|];
          }
        }
      }
      if k == -1 then
        assert forall i :: !OccursAt(s, pat, i) by {
          forall i ensures !OccursAt(s, pat, i) {
            if 1 <= i {
              assert !OccursAt(s[1..], pat, i - 1);
            }
          }
        }
        -1
      else
        assert forall i :: 0 <= i < k + 1 ==> !OccursAt(s, pat, i) by {
          forall i | 0 <= i < k + 1 ensures !OccursAt(s, pat, i) {
            if 1 <= i {
              assert !OccursAt(s[1..], pat, i - 1);
            }
          }
        }
        k + 1
  }

  /** `s.indexOf(pat) !== -1`. */
  predicate Contains<T(==)>(s: seq<T>, pat: seq<T>) {
    IndexOfSub(s, pat) != -1
  }

  /** `s.replace(pat, rep)` with a string pattern: only the FIRST occurrence of
      `pat` is replaced, wherever it is; without an occurrence `s` is returned. */
  function ReplaceFirst<T(==)>(s: seq<T>, pat: seq<T>, rep: seq<T>): (r: seq<T>)
    ensures !Contains(s, pat) ==> r == s
    ensures Contains(s, pat) ==> |r| == |s| - |pat| + |rep|
  {
    var i := IndexOfSub(s, pat);
    if i == -1 then s else s[..i] + rep + s[i + |pat|..]
  }

  /** `a.splice(0, deleteCount)` seen through the array it leaves behind: the
      count is clamped to `0..|a|` and that many leading entries are removed. */
  function SpliceFront<T>(a: seq<T>, deleteCount: int): (r: seq<T>)
    ensures |r| == |a| - Min(Max(deleteCount, 0), |a|)
    ensures forall k :: 0 <= k < |r| ==> r[k] == a[|a| - |r| + k]
    ensures deleteCount <= 0 ==> r == a
  {
    a[Min(Max(deleteCount, 0), |a|)..]
  }
}

=== FILE: scrubber_proofs.dfy ===
/**
 Properties of the `beforeSend` scrubber: how context lists are trimmed, how
 file names are redacted, how the type rewrite interacts with the failing
 `mechanism` assignment, and what a second scrub of a scrubbed event changes.
 */
module ScrubberProofs {
  import opened JsValues
  import opened ThorinErrors
  import opened EventScrubber

  // ---------------------------------------------------------------- context lists

  /** A positive limit leaves at most `n` lines, namely the last ones of the
      list in their original order, and drops exactly the leading surplus. */
  lemma TrimKeepsLastLines(ctx: seq<string>, n: int)
    requires n > 0
    ensures var r := TrimContext(Some(ctx), n).value;
      && |r| == Min(n, |ctx|)
      && |r| <= n
      && (forall k :: 0 <= k < |r| ==> r[k] == ctx[|ctx| - |r| + k])
      && (|ctx| <= n ==> r == ctx)
  {
  }

  /** Trimming a trimmed list again with the same limit changes nothing. */
  lemma TrimIdempotent(ctx: Option<seq<string>>, n: int)
    ensures TrimContext(TrimContext(ctx, n), n) == TrimContext(ctx, n)
  {
    if ctx.Some? && n > 0 {
      var once := LastLines(ctx.value, n);
      assert LastLines(once, n) == once;
    }
  }

  // ---------------------------------------------------------------- file names

  /** A root that starts the file name is replaced by "." and the rest kept:
      `/app/lib/x.js` with root `/app` becomes `./lib/x.js`. */
  lemma LeadingRootBecomesDot(filename: string, root: string)
    requires |root| <= |filename| && filename[..|root|] == root
    ensures ReplaceFirst(filename, root, ".") == "." + filename[|root|..]
  {
    assert OccursAt(filename, root, 0);
  }

  lemma AppRootExample()
    ensures ReplaceFirst("/app/lib/x.js", "/app", ".") == "./lib/x.js"
  {
    LeadingRootBecomesDot("/app/lib/x.js", "/app");
  }

  /** The replace acts at the first position where `pat` occurs. */
  lemma ReplaceAtFirstOccurrence(s: string, pat: string, rep: string, k: int)
    requires OccursAt(s, pat, k)
    requires forall i :: 0 <= i < k ==> !OccursAt(s, pat, i)
    ensures ReplaceFirst(s, pat, rep) == s[..k] + rep + s[k + |pat|..]
  {
    var i := IndexOfSub(s, pat);
    assert i != -1;
    assert !(i < k) && !(k < i);
  }

  /** The redaction is a first-occurrence replace, not a prefix test: a root
      found after a directory part `dir` (as `/app` in `/srv/app/x.js`) is
      replaced there, provided it does not occur earlier. */
  lemma RootInsideNameIsReplaced(dir: string, root: string, rest: string)
    requires forall i :: 0 <= i < |dir| ==> !OccursAt(dir + root + rest, root, i)
    ensures ReplaceFirst(dir + root + rest, root, ".") == dir + "." + rest
  {
    var s := dir + root + rest;
    assert s[|dir|..|dir| + |root|] == root;
    ReplaceAtFirstOccurrence(s, root, ".", |dir|);
    assert s[..|dir|] == dir && s[|dir| + |root|..] == rest;
  }

  /** Replacing the first occurrence of `root` by "." leaves a string unchanged
      exactly when `root` does not occur in it, or `root` is "." itself. */
  lemma ReplaceFixpointIff(s: string, root: string)
    ensures ReplaceFirst(s, root, ".") == s <==> !Contains(s, root) || root == "."
  {
    if Contains(s, root) {
      var i := IndexOfSub(s, root);
      var r := ReplaceFirst(s, root, ".");
      assert r == s[..i] + "." + s[i + |root|..];
      if root == "." {
        assert s[i..i + 1] == ".";
        assert s == s[..i] + s[i..i + 1] + s[i + 1..];
      }
      if r == s {
        assert |root| == 1;
        assert r[i] == '.';
        assert s[i] == root[0];
      }
    }
  }

  /** Redaction is not idempotent: with root `/app` the name `/app/app/x.js`
      becomes `./app/x.js`, and a second scrub turns that into `../x.js`. */
  lemma RedactionNotIdempotent()
    ensures ReplaceFirst("/app/app/x.js", "/app", ".") == "./app/x.js"
    ensures ReplaceFirst("./app/x.js", "/app", ".") == "../x.js"
  {
    var s := "/app/app/x.js";
    assert s[..4] == "/app";
    LeadingRootBecomesDot(s, "/app");
    assert s[4..] == "/app/x.js";
    var t := "./app/x.js";
    assert t[1..5] == "/app";
    assert OccursAt(t, "/app", 1);
    assert !OccursAt(t, "/app", 0) by {
      assert t[0..4][0] == t[0];
    }
    ReplaceAtFirstOccurrence(t, "/app", ".", 1);
    assert t[..1] == "." && t[5..] == "/x.js";
  }

  // ---------------------------------------------------------------- frames

  /** A second scrub of a scrubbed frame never changes its context lists or
      context line; its file name is unchanged when `fullPath` is set, and
      otherwise exactly when the root no longer occurs in it (or is "."). */
  lemma ScrubFrameTwice(c: ScrubConfig, f: Frame)
    ensures var once := ScrubFrame(c, f); var twice := ScrubFrame(c, once);
      && twice.preContext == once.preContext
      && twice.postContext == once.postContext
      && twice.contextLine == once.contextLine
      && (c.fullPath ==> twice == once && once.filename == f.filename)
      && (!c.fullPath && TruthyStr(f.filename) ==>
            (twice == once <==> !Contains(once.filename.value, c.root) || c.root == "."))
  {
    TrimIdempotent(f.preContext, c.pre);
    TrimIdempotent(f.postContext, c.post);
    var once := ScrubFrame(c, f);
    if !c.fullPath && TruthyStr(f.filename) {
      var s := once.filename.value;
      ReplaceFixpointIff(s, c.root);
      if Contains(f.filename.value, c.root) {
        assert |s| == |f.filename.value| - |c.root| + 1;
        assert s != "";
      }
    }
  }

  lemma ScrubFramesFixpoint(c: ScrubConfig, fs: seq<Frame>)
    requires c.fullPath
    ensures ScrubFrames(c, ScrubFrames(c, fs)) == ScrubFrames(c, fs)
  {
    forall j | 0 <= j < |fs| ensures ScrubFrame(c, ScrubFrame(c, fs[j])) == ScrubFrame(c, fs[j]) {
      ScrubFrameTwice(c, fs[j]);
    }
  }

  lemma WithScrubbedFramesFixpoint(c: ScrubConfig, v: ExceptionValue)
    requires ScrubFrames(c, FramesOf(v)) == FramesOf(v)
    ensures WithScrubbedFrames(c, v) == v
  {
  }

  // ---------------------------------------------------------------- exception values

  /** With an original error that has a truthy code, every rewritten type
      contains "Thorin", so a value throws exactly when it has no mechanism. */
  lemma CodeRewriteMarksThorin(c: ScrubConfig, orig: Option<ThorinError>, v: ExceptionValue)
    requires orig.Some? && TruthyStr(orig.value.code)
    ensures RewrittenType(orig, v) == Some("Thorin: " + orig.value.code.value)
    ensures MarksThorin(RewrittenType(orig, v))
    ensures Throws(c, orig, v) <==> v.mechanism.None?
  {
    var t := "Thorin: " + orig.value.code.value;
    assert t[0..6] == "Thorin";
    assert OccursAt(t, "Thorin", 0);
  }

  /** Scrubbing a scrubbed value again gives the same type, mechanism and
      outcome; only its frames are scrubbed once more. */
  lemma ScrubValueTwice(c: ScrubConfig, orig: Option<ThorinError>, v: ExceptionValue)
    ensures var (v1, ok) := ScrubValue(c, orig, v);
      ScrubValue(c, orig, v1) == (WithScrubbedFrames(c, v1), ok)
  {
  }

  /** A second pass of the loop over its own output stops at the same value
      as the first; the values it reaches only have their frames scrubbed again. */
  lemma {:induction false} ScrubValuesTwice(c: ScrubConfig, orig: Option<ThorinError>, vs: seq<ExceptionValue>)
    ensures var vs1 := ScrubValues(c, orig, vs).0; var vs2 := ScrubValues(c, orig, vs1).0;
      && |vs2| == |vs|
      && forall i :: 0 <= i < |vs| ==>
           vs2[i] == if Reaches(c, orig, vs, i) then WithScrubbedFrames(c, vs1[i]) else vs1[i]
    decreases |vs|
  {
    if |vs| > 0 {
      var (v1, ok) := ScrubValue(c, orig, vs[0]);
      var tail := vs[1..];
      ScrubValueTwice(c, orig, vs[0]);
      ReachesStep(c, orig, vs);
      var vs1 := ScrubValues(c, orig, vs).0;
      assert vs1[0] == v1;
      if !ok {
        assert vs1 == [v1] + tail;
        assert ScrubValues(c, orig, vs1).0 == [WithScrubbedFrames(c, v1)] + tail;
      } else {
        var rest := ScrubValues(c, orig, tail).0;
        assert vs1 == [v1] + rest;
        ScrubValuesTwice(c, orig, tail);
        assert vs1[1..] == rest;
        ReachesStep(c, orig, vs1);
        var vs2 := ScrubValues(c, orig, vs1).0;
        assert vs2 == [WithScrubbedFrames(c, v1)] + ScrubValues(c, orig, rest).0;
        forall i | 1 <= i < |vs|
          ensures vs2[i] == if Reaches(c, orig, vs, i) then WithScrubbedFrames(c, vs1[i]) else vs1[i]
        {
          assert vs2[i] == ScrubValues(c, orig, rest).0[i - 1];
          assert vs1[i] == rest[i - 1];
        }
      }
    }
  }

  // ---------------------------------------------------------------- events

  /** The type rewrite of the loop when the original error has a truthy code:
      the loop reaches value `i` exactly when every earlier value has a
      mechanism; each reached value gets the type "Thorin: <code>" and, when
      it has a mechanism, the mechanism type "thorin"; the values after the
      first one without a mechanism are returned untouched. */
  lemma CodeRewritesReachedTypes(c: ScrubConfig, hint: Hint, e: Event)
    requires hint.originalException.Some? && TruthyStr(hint.originalException.value.code)
    ensures var orig := OriginalError(hint); var vs := ValuesOf(e); var r := ValuesOf(BeforeSend(c, hint, e));
      && |r| == |vs|
      && (forall i :: 0 <= i <= |vs| ==>
            (Reaches(c, orig, vs, i) <==> forall k :: 0 <= k < i ==> vs[k].mechanism.Some?))
      && (forall i :: 0 <= i < |vs| && Reaches(c, orig, vs, i) ==>
            && r[i].excType == Some("Thorin: " + hint.originalException.value.code.value)
            && (vs[i].mechanism.Some? ==> r[i].mechanism == Some(vs[i].mechanism.value.(mechType := Some("thorin")))))
      && (forall i :: 0 <= i < |vs| && !Reaches(c, orig, vs, i) ==> r[i] == vs[i])
  {
    var orig := OriginalError(hint);
    var vs := ValuesOf(e);
    forall k | 0 <= k < |vs| ensures Throws(c, orig, vs[k]) <==> vs[k].mechanism.None? {
      CodeRewriteMarksThorin(c, orig, vs[k]);
    }
    forall i | 0 <= i < |vs| && Reaches(c, orig, vs, i)
      ensures ScrubValue(c, orig, vs[i]).0.excType == Some("Thorin: " + hint.originalException.value.code.value)
      ensures MarksThorin(RewrittenType(orig, vs[i]))
    {
      CodeRewriteMarksThorin(c, orig, vs[i]);
    }
  }

  /** Every frame of every value the loop reaches (including the value whose
      mechanism assignment throws) has both context lists trimmed; when no
      value throws, that is every frame of the event. */
  lemma ReachedFramesAreTrimmed(c: ScrubConfig, hint: Hint, e: Event)
    ensures var orig := OriginalError(hint); var vs := ValuesOf(e); var r := ValuesOf(BeforeSend(c, hint, e));
      forall i, j :: 0 <= i < |vs| && Reaches(c, orig, vs, i) && 0 <= j < |FramesOf(vs[i])| ==>
        && |FramesOf(r[i])| == |FramesOf(vs[i])|
        && FramesOf(r[i])[j].preContext == TrimContext(FramesOf(vs[i])[j].preContext, c.pre)
        && FramesOf(r[i])[j].postContext == TrimContext(FramesOf(vs[i])[j].postContext, c.post)
        && FramesOf(r[i])[j].filename == (if c.fullPath then FramesOf(vs[i])[j].filename
                                          else RedactFilename(c, FramesOf(vs[i])[j].filename))
  {
  }

  lemma EnrichTwice(orig: Option<ThorinError>, e: Event)
    ensures Enrich(orig, Enrich(orig, e)) == Enrich(orig, e)
  {
    if orig.Some? && TruthyStr(orig.value.code) && TruthyStr(orig.value.ns) && Truthy(orig.value.data) {
      var once := Enrich(orig, e);
      var d := orig.value.data.value;
      var m := if e.extra.Some? then e.extra.value else map[];
      assert once.extra == Some(m["data" := d]);
      assert m["data" := d]["data" := d] == m["data" := d];
    }
  }

  /** With `fullPath` set, scrubbing a scrubbed event changes nothing at all. */
  lemma BeforeSendIdempotentWithFullPath(c: ScrubConfig, hint: Hint, e: Event)
    requires c.fullPath
    ensures BeforeSend(c, hint, BeforeSend(c, hint, e)) == BeforeSend(c, hint, e)
  {
    var orig := OriginalError(hint);
    var once := BeforeSend(c, hint, e);
    EnrichTwice(orig, e);
    var vs := ValuesOf(Enrich(orig, e));
    assert vs == ValuesOf(e);
    ScrubValuesTwice(c, orig, vs);
    var vs1 := ScrubValues(c, orig, vs).0;
    var vs2 := ScrubValues(c, orig, vs1).0;
    forall i | 0 <= i < |vs| ensures vs2[i] == vs1[i] {
      if Reaches(c, orig, vs, i) {
        ScrubFramesFixpoint(c, FramesOf(vs[i]));
        WithScrubbedFramesFixpoint(c, vs1[i]);
      }
    }
    assert vs2 == vs1;
  }

  /** The context lists of an event, value by value and frame by frame. */
  function FrameContexts(fs: seq<Frame>): seq<(Option<seq<string>>, Option<seq<string>>)> {
    seq(|fs|, j requires 0 <= j < |fs| => (fs[j].preContext, fs[j].postContext))
  }

  function EventContexts(e: Event): seq<seq<(Option<seq<string>>, Option<seq<string>>)>> {
    var vs := ValuesOf(e);
    seq(|vs|, i requires 0 <= i < |vs| => FrameContexts(FramesOf(vs[i])))
  }

  /** Scrubbing scrubbed frames again leaves their context lists as they are. */
  lemma RescrubKeepsContexts(c: ScrubConfig, fs: seq<Frame>)
    ensures FrameContexts(ScrubFrames(c, ScrubFrames(c, fs))) == FrameContexts(ScrubFrames(c, fs))
  {
    var once := ScrubFrames(c, fs);
    var twice := ScrubFrames(c, once);
    forall j | 0 <= j < |fs|
      ensures twice[j].preContext == once[j].preContext && twice[j].postContext == once[j].postContext
    {
      ScrubFrameTwice(c, fs[j]);
    }
  }

  /** The second loop leaves the context lists of every value as the first loop left them. */
  lemma ScrubValuesTwiceKeepsContexts(c: ScrubConfig, orig: Option<ThorinError>, vs: seq<ExceptionValue>)
    ensures var vs1 := ScrubValues(c, orig, vs).0; var vs2 := ScrubValues(c, orig, vs1).0;
      && |vs2| == |vs1|
      && forall i :: 0 <= i < |vs1| ==> FrameContexts(FramesOf(vs2[i])) == FrameContexts(FramesOf(vs1[i]))
  {
    ScrubValuesTwice(c, orig, vs);
    var vs1 := ScrubValues(c, orig, vs).0;
    var vs2 := ScrubValues(c, orig, vs1).0;
    forall i | 0 <= i < |vs1| ensures FrameContexts(FramesOf(vs2[i])) == FrameContexts(FramesOf(vs1[i])) {
      if Reaches(c, orig, vs, i) {
        assert FramesOf(vs1[i]) == ScrubFrames(c, FramesOf(vs[i]));
        RescrubKeepsContexts(c, FramesOf(vs[i]));
      }
    }
  }

  /** Whatever the options, a second scrub of a scrubbed event leaves every
      `pre_context` and `post_context` as the first scrub left it. */
  lemma ContextTrimmingIdempotent(c: ScrubConfig, hint: Hint, e: Event)
    ensures EventContexts(BeforeSend(c, hint, BeforeSend(c, hint, e))) == EventContexts(BeforeSend(c, hint, e))
  {
    var orig := OriginalError(hint);
    var once := BeforeSend(c, hint, e);
    ScrubValuesTwiceKeepsContexts(c, orig, ValuesOf(e));
    assert ValuesOf(once) == ScrubValues(c, orig, ValuesOf(e)).0;
    assert ValuesOf(BeforeSend(c, hint, once)) == ScrubValues(c, orig, ValuesOf(once)).0;
  }
}

=== FILE: sentry_plugin.dfy ===
/**
 The plugin as a whole (lib/sentry.js): the options it reads, the session it
 sets up, and the manual `capture` entry point. The SDK is initialised and the
 hooks are installed only when a truthy DSN is configured; otherwise every
 entry point is a silent no-op.
 */
module SentryPlugin {
  import opened JsValues
  import opened ThorinErrors
  import ErrorFilter
  import EventScrubber
  import IntegrationSelector
  import FailureInterceptor

  /** The options the core reads. */
  datatype PluginOptions = PluginOptions(
    dsn: Option<string>,
    ignore: Option<ErrorFilter.IgnoreOptions>,
    contextLines: Option<EventScrubber.ContextLines>,
    fullPath: Option<JsData>,
    integrations: IntegrationSelector.Setting
  )

  /** The closure state after start-up: `isActive`, the `isShuttingDown`
      guard, the resolved ignore policy and the scrubber configuration. */
  datatype Session = Session(
    active: bool,
    guard: FailureInterceptor.Guard,
    filter: ErrorFilter.Filter,
    scrub: EventScrubber.ScrubConfig
  )

  /** Start-up: the session is active exactly when `opt.dsn` is truthy, the
      guard starts down, and `root` stands for the normalised `thorin.root`. */
  function Init(opt: PluginOptions, root: string): (s: Session)
    ensures s.active <==> TruthyStr(opt.dsn)
    ensures !s.guard.isShuttingDown
    ensures s.filter == ErrorFilter.ResolveFilter(opt.ignore)
    ensures s.scrub == EventScrubber.ResolveConfig(opt.contextLines, opt.fullPath, root)
  {
    Session(
      TruthyStr(opt.dsn),
      FailureInterceptor.Guard(false),
      ErrorFilter.ResolveFilter(opt.ignore),
      EventScrubber.ResolveConfig(opt.contextLines, opt.fullPath, root))
  }

  /** `sentry.capture(e)`: nothing happens and nothing is returned while the
      session is inactive; otherwise the SDK captures `e` and its event id
      (`eventId`, chosen by the SDK) is returned. */
  function Capture(s: Session, e: JsData, eventId: string): (r: (Option<string>, seq<FailureInterceptor.Effect>))
    ensures !s.active ==> r.0.None? && r.1 == []
    ensures s.active ==> r.0 == Some(eventId) && r.1 == [FailureInterceptor.CaptureException(e)]
  {
    if !s.active then (None, []) else (Some(eventId), [FailureInterceptor.CaptureException(e)])
  }

  /** A sequence of manual captures, each with the event id the SDK would assign. */
  function CaptureAll(s: Session, calls: seq<(JsData, string)>): seq<FailureInterceptor.Effect> {
    if |calls| == 0 then []
    else CaptureAll(s, calls[..|calls| - 1]) + Capture(s, calls[|calls| - 1].0, calls[|calls| - 1].1).1
  }

  /** Without a truthy DSN no manual capture ever reaches the SDK; with one,
      every call does, in order. */
  lemma {:induction false} CaptureGate(opt: PluginOptions, root: string, calls: seq<(JsData, string)>)
    ensures !TruthyStr(opt.dsn) ==> CaptureAll(Init(opt, root), calls) == []
    ensures TruthyStr(opt.dsn) ==>
      CaptureAll(Init(opt, root), calls) == seq(|calls|, k requires 0 <= k < |calls| => FailureInterceptor.CaptureException(calls[k].0))
    decreases |calls|
  {
    if |calls| > 0 {
      CaptureGate(opt, root, calls[..|calls| - 1]);
    }
  }

  /** A fatal signal reaches the guard only when the handlers were installed,
      that is when the session is active; the guard is then updated. */
  function HandleFatal(s: Session, sig: FailureInterceptor.Signal): (r: (Session, seq<FailureInterceptor.Effect>))
    ensures !s.active ==> r == (s, [])
    ensures s.active ==> r.0 == s.(guard := FailureInterceptor.OnFatal(s.guard, sig).0)
    ensures s.active ==> r.1 == FailureInterceptor.OnFatal(s.guard, sig).1
  {
    if !s.active then (s, [])
    else
      var (g, es) := FailureInterceptor.OnFatal(s.guard, sig);
      (s.(guard := g), es)
  }

  /** A Thorin error reaches the ignore policy only when the error hook was
      registered, that is when the session is active. The hook registered is
      `onThorinCustomError` as written: every error the policy keeps ends in
      the ReferenceError of the stray identifier, so none is captured. */
  function HandleThorinError(s: Session, err: ThorinError): (r: Option<ErrorFilter.HookOutcome>)
    ensures r.Some? <==> s.active
    ensures s.active ==> (r.value.Ignored? <==> ErrorFilter.Ignores(s.filter, err))
    ensures s.active && !ErrorFilter.Ignores(s.filter, err) ==> r == Some(ErrorFilter.ThrewReferenceError("aa"))
    ensures forall e :: r != Some(ErrorFilter.Forwarded(e))
  {
    if s.active then Some(ErrorFilter.OnCustomErrorAsWritten(s.filter, err)) else None
  }

  /** The same wiring with the corrected hook: every error the policy keeps
      is forwarded to the SDK unchanged. */
  function HandleThorinErrorIntended(s: Session, err: ThorinError): (r: Option<ErrorFilter.HookOutcome>)
    ensures r.Some? <==> s.active
    ensures s.active ==> (r.value.Ignored? <==> ErrorFilter.Ignores(s.filter, err))
    ensures s.active && !ErrorFilter.Ignores(s.filter, err) ==> r == Some(ErrorFilter.Forwarded(err))
  {
    if s.active then Some(ErrorFilter.OnCustomError(s.filter, err)) else None
  }

  /** The two wirings agree on every error the policy ignores and on an
      inactive session, and differ on every other error. */
  lemma HandleThorinErrorDiffers(s: Session, err: ThorinError)
    ensures HandleThorinError(s, err) == HandleThorinErrorIntended(s, err) <==>
      !s.active || ErrorFilter.Ignores(s.filter, err)
  {
  }
}

=== FILE: thorin_errors.dfy ===
/**
 The fields the plugin reads from an error raised by the Thorin host (through
 `thorin.error()`) or from any other thrown value. A thrown value that is not
 an object, or an object without these properties, has every field `None`.
 */
module ThorinErrors {
  import opened JsValues

  datatype ThorinError = ThorinError(
    ns: Option<string>,          // `err.ns`, the error namespace
    code: Option<string>,        // `err.code`, the error identifier
    statusCode: Option<int>,     // `err.statusCode`, an HTTP-like status
    data: Option<JsData>         // `err.data`, an arbitrary payload
  )
}
